=== FILE: README.md ===
# next-proxy: the `/proxy/api` route as pure translation functions

This project models the Next.js route `next-proxy/src/app/proxy/api/route.ts`:
the `/proxy/api` route, whose handlers accept an optional `path` parameter
(a list of path segments). The route is a reverse-proxy shim: a `GET`,
`POST`, `PUT`, `PATCH` or `DELETE` on it is forwarded to one backend origin,
and the backend's answer is relayed back. The route's `forwardRequest` is split here
into the pure steps it performs:

- **Configuration** (`ProxyConfig`): the backend origin from `BACKEND_URL`.
  An unset or empty value is an error. Every function that builds the target
  URL requires a valid configuration.
- **Target URL** (`Paths`, `ProxyRoute.TargetUrl`): the catch-all segments
  are joined with `/` (an absent list counts as empty). The URL is the
  origin, a slash, the joined path and the query string.
- **Header container** (`Headers`): the WHATWG `Headers` object with one
  value per name. Names are stored lower-case and looked up without regard to
  case (section 5.1 of RFC 9110).
- **Inbound headers** (`ProxyRoute.OutboundHeaders`): copy, delete `host`,
  set `cookie` again from the incoming request.
- **Body gate** (`ProxyRoute.RequestBody`): the method is upper-cased. `GET`
  and `HEAD` carry no body; every other method carries the incoming text.
- **Response** (`Fetch`, `ProxyRoute.RelayAsWritten`, `ProxyRoute.CopyResponseHeaders`):
  status and body bytes are copied unchanged. Every header except
  `content-encoding` is copied. The reply goes through the Fetch Standard's
  `Response` constructor, which throws for 204, 205 and 304 because the
  route always passes a body. `ProxyRoute.TranslateResponse` is the
  corrected step (see Findings).
- **Handler** (`ProxyRoute.Handle`): one request to the backend, one outcome
  built from the backend's answer. The backend is a function parameter.
  `ProxyRoute.HandleCorrected` is the same handler with the corrected
  response step (see Findings).

Unlike the sibling route `next-proxy/src/app/proxy/[...path]/route.ts`, this
route:
- removes only `host` from the forwarded headers, so `connection` and
  `content-length` are forwarded;
- does not re-set `authorization` explicitly;
- still attaches an empty body on `POST` etc. as `""`;
- always puts a `/` after the origin and has no backend path prefix;
- has no CORS headers, no preflight handler, no cookie-attribute rewriting,
  no JSON envelope and no error boundary.

## Model

| member | source | states |
|---|---|---|
| ProxyConfig.Load | next-proxy/src/app/proxy/api/route.ts:3-4 | A configuration exists exactly when `BACKEND_URL` is set and non-empty; it is then valid and holds that value; otherwise the error is `BackendUrlNotSet` |
| Paths.Join | next-proxy/src/app/proxy/api/route.ts:43 | `Array.prototype.join`: the empty list joins to "" and a non-empty join starts with its first part; its partners are SplitJoin, JoinSplit and JoinLength |
| Paths.JoinLength | next-proxy/src/app/proxy/api/route.ts:43 | A join is as long as its parts together plus one separator per gap between neighbours |
| Paths.JoinSegments | next-proxy/src/app/proxy/api/route.ts:43 | An absent `path` joins like the empty list, to ""; a present one is the `/`-join of its segments |
| Paths.SplitJoin | next-proxy/src/app/proxy/api/route.ts:43 | Joining one or more segments with `/` loses nothing: splitting the result at `/` gives the segments back when none contains a slash |
| Paths.JoinSplit | next-proxy/src/app/proxy/api/route.ts:43 | Every path string is the `/`-join of its own split, so the join can produce any path |
| ProxyRoute.TargetUrl | next-proxy/src/app/proxy/api/route.ts:8 | The URL starts with the backend origin, then one `/`, then the joined segments, and ends with the query string; its length is the sum of the parts |
| ProxyRoute.TargetUrlKeepsSegments | next-proxy/src/app/proxy/api/route.ts:8 | The route's segments can be read back from the URL's path part, so distinct non-empty slash-free segment lists give distinct URLs |
| ProxyRoute.TargetUrlWithoutSegments | next-proxy/src/app/proxy/api/route.ts:43 | An absent or empty segment list gives the URL origin + "/" + query: the trailing slash is kept |
| Headers.Get | next-proxy/src/app/proxy/api/route.ts:11 | A lookup finds a value exactly when some stored name equals the asked name without regard to case, and returns that name's value |
| Headers.Set | next-proxy/src/app/proxy/api/route.ts:12 | After a set, the name (in any case) reads back the new value and every other name reads back as before |
| Headers.Delete | next-proxy/src/app/proxy/api/route.ts:10 | After a delete, the name (in any case) is absent and every other name reads back as before |
| ProxyRoute.ResetCookie | next-proxy/src/app/proxy/api/route.ts:11-12 | When the incoming `cookie` is non-empty the result's `cookie` equals it; otherwise the map is unchanged; no other name is touched |
| ProxyRoute.ResetCookieKeepsCopy | next-proxy/src/app/proxy/api/route.ts:11-12 | Applied to the copied headers with `host` deleted, the cookie re-set leaves the map exactly as it was |
| ProxyRoute.ResetCookieIdempotent | next-proxy/src/app/proxy/api/route.ts:11-12 | Re-setting the cookie twice gives the same map as once |
| ProxyRoute.OutboundHeaders | next-proxy/src/app/proxy/api/route.ts:9-12 | The forwarded headers are the incoming ones minus `host` exactly: `host` is absent, every other name (including `content-length`, `connection` and `cookie`) keeps its value |
| ProxyRoute.RequestBody | next-proxy/src/app/proxy/api/route.ts:14-16 | There is no body exactly when the method spells `GET` or `HEAD` in any letter case; otherwise the body is the incoming text verbatim |
| ProxyRoute.BuildRequest | next-proxy/src/app/proxy/api/route.ts:8-21 | The request passed to `fetch` has the target URL, the upper-cased method, the incoming headers minus `host`, and a body exactly when the method is not `GET`/`HEAD`, equal to the incoming text |
| ProxyRoute.RelayedHeaders | next-proxy/src/app/proxy/api/route.ts:26-30 | No relayed name equals `content-encoding` without regard to case; every other backend header is relayed with its value; no header is added |
| ProxyRoute.CopyResponseHeaders | next-proxy/src/app/proxy/api/route.ts:26-30 | Visiting the backend headers one at a time and setting all but `content-encoding` yields the relayed headers, whatever the visiting order |
| Fetch.NewResponse | next-proxy/src/app/proxy/api/route.ts:32-35 | The `Response` constructor succeeds exactly for a status in 200..599 that is not given a body together with a null body status (101, 103, 204, 205, 304); the result carries the given status, headers and bytes |
| ProxyRoute.RelayAsWritten | next-proxy/src/app/proxy/api/route.ts:24-35 | As written, the reply exists exactly for a status in 200..599 that is not 204, 205 or 304, and then has the backend's status, body bytes and headers minus `content-encoding` |
| ProxyRoute.NullBodyStatusThrows | next-proxy/src/app/proxy/api/route.ts:32-35 | As written, a backend 204, 205 or 304 always makes the constructor throw, whatever the body and headers |
| ProxyRoute.NotModifiedThrows | next-proxy/src/app/proxy/api/route.ts:32-35 | As written, a bodiless 304 with no headers makes the constructor throw |
| ProxyRoute.TranslateResponse | next-proxy/src/app/proxy/api/route.ts:24-35 | Corrected: a reply exists for every status in 200..599 and carries the backend's status; the body bytes are unchanged except that a null body status gets none; any header lookup gives nothing for `content-encoding` and the backend's value otherwise |
| ProxyRoute.TranslateResponseExtendsAsWritten | next-proxy/src/app/proxy/api/route.ts:32-35 | The correction agrees with the route wherever the route succeeds, and replies where the route throws on a null body status |
| ProxyRoute.Handle | next-proxy/src/app/proxy/api/route.ts:39-68 | As written: each handler sends exactly the built request; a reply exists exactly when the backend's status is in 200..599 and is not 204, 205 or 304, and it then has that status, the backend's body bytes and its headers minus `content-encoding` |
| ProxyRoute.HandleCorrected | next-proxy/src/app/proxy/api/route.ts:39-68 | Corrected: the same request is sent; a reply exists for every backend status in 200..599, with that status and the headers minus `content-encoding`; the body bytes are relayed, except that 204, 205 and 304 get none |
| ProxyRoute.HandleCorrectedExtendsHandle | next-proxy/src/app/proxy/api/route.ts:39-68 | The corrected handler sends the same request as the handler as written and gives the same outcome wherever that one replies |
| Ascii.Lower | next-proxy/src/app/proxy/api/route.ts:28 | Lower-casing a header name keeps its length, leaves no upper-case ASCII letter and keeps every other character; the Headers container stores names in this form |
| Ascii.Upper | next-proxy/src/app/proxy/api/route.ts:14 | Upper-casing keeps the length, leaves no lower-case ASCII letter, keeps every other character, and names the same word without regard to case |
| Ascii.UpperSpells | next-proxy/src/app/proxy/api/route.ts:14 | Upper-casing a method gives an all-capitals word exactly when the method spells that word with each letter in either case |

## Left out

- The `fetch` call is network I/O. It is a function parameter from the sent request to the backend's response. `credentials: "include"` is not modelled.
- The route does not pass `redirect: "manual"`, so `fetch` follows redirects. The backend function stands for the final response after any redirects.
- A rejected `fetch` (unreachable backend) is not modelled. The route does not catch it; the exception propagates to the framework.
- `await req.text()` and `await res.arrayBuffer()` are asynchronous reads. The model takes their results as ready values.
- `NextResponse` and `Buffer` are framework code. Only the checks of the `Response` constructor that a relayed status can trip are modelled (`Fetch.NewResponse`). The `statusText` check is not modelled, and neither is what the framework sends when a handler throws.
- Reading `process.env` at module load is replaced by `ProxyConfig.Load`. Its result is passed as an immutable parameter.
- The `Headers` container keeps one value per name here, so a backend that sends several `set-cookie` values is not modelled. In the route, `forEach` visits each `set-cookie` value separately and `resHeaders.set(key, value)` replaces the earlier one instead of appending, so only the last value reaches the caller.
- The `Headers` container rejects invalid header names and values. That validation is not modelled.
- ProxyRoute.BuildRequest: `toUpperCase` is modelled on ASCII letters only (`Ascii.Upper`), so the method sent differs for non-ASCII input: JavaScript turns "poſt" into "POST", the model into "POſT". The body decision in `ProxyRoute.RequestBody` is unaffected: no non-ASCII character upper-cases to a letter of `GET` or `HEAD`.
- How Next.js dispatches a request to a handler and fills `params.path` is framework plumbing. The five exported handlers are identical and are modelled by one `ProxyRoute.Handle`. The framework's implicit `HEAD` and `OPTIONS` handling is not modelled.
- This file is a static route segment, so the framework never supplies `params.path` for it: in practice the segments are absent and the URL is the origin, "/" and the query. The model keeps `segments` as a parameter because the handlers are written to accept it.

## Findings

| source | as written | input that shows it | evidently intended | confidence | as-written member | corrected member |
|---|---|---|---|---|---|---|
| next-proxy/src/app/proxy/api/route.ts:32-35 | The reply is always built with `Buffer.from(buffer)` as its body, which is a non-null body even when empty | The backend answers 304 Not Modified with no body, e.g. to a forwarded `If-None-Match`; the `Response` constructor throws a TypeError for a body with a null body status (ProxyRoute.NotModifiedThrows, ProxyRoute.NullBodyStatusThrows; the response step alone is ProxyRoute.RelayAsWritten as written and ProxyRoute.TranslateResponse corrected) | Relay a 204, 205 or 304 to the caller without a body | high; not executed | ProxyRoute.Handle | ProxyRoute.HandleCorrected |

=== FILE: ascii.dfy ===
/**
  ASCII case mapping, as used for HTTP header names and method tokens.

  Header names are tokens (ASCII only), and the Headers container lower-cases
  them byte by byte, so an ASCII mapping is exact for them. Characters outside
  `A`-`Z` / `a`-`z` are left unchanged.
 */
module Ascii {

  predicate IsUpperLetter(c: char) { 'A' <= c <= 'Z' }

  predicate IsLowerLetter(c: char) { 'a' <= c <= 'z' }

  function LowerChar(c: char): char {
    if IsUpperLetter(c) then (c as int + 32) as char else c
  }

  function UpperChar(c: char): char {
    if IsLowerLetter(c) then (c as int - 32) as char else c
  }

  /**
    `s.toLowerCase()` restricted to ASCII letters, as the Headers container
    lower-cases names: no upper-case letter is left and everything else is
    kept.
   */
  function Lower(s: string): (r: string)
    ensures |r| == |s|
    ensures forall i :: 0 <= i < |r| ==> !IsUpperLetter(r[i])
    ensures forall i :: 0 <= i < |s| && !IsUpperLetter(s[i]) ==> r[i] == s[i]
  {
    seq(|s|, i requires 0 <= i < |s| => LowerChar(s[i]))
  }

  /**
    `s.toUpperCase()` restricted to ASCII letters: no lower-case letter is
    left, everything else is kept, and the result names the same word
    without regard to case.
   */
  function Upper(s: string): (r: string)
    ensures |r| == |s|
    ensures forall i :: 0 <= i < |r| ==> !IsLowerLetter(r[i])
    ensures forall i :: 0 <= i < |s| && !IsLowerLetter(s[i]) ==> r[i] == s[i]
    ensures EqualsIgnoreCase(r, s)
  {
    seq(|s|, i requires 0 <= i < |s| => UpperChar(s[i]))
  }

  /** Two names that differ only in the case of ASCII letters. */
  predicate EqualsIgnoreCase(a: string, b: string) {
    Lower(a) == Lower(b)
  }

  /** `m` spells the upper-case word `w` with each letter in either case. */
  predicate SpellsIgnoringCase(m: string, w: string) {
    |m| == |w| && forall i :: 0 <= i < |m| ==> m[i] == w[i] || m[i] == LowerChar(w[i])
  }

  /** Lower-casing twice is lower-casing once. */
  lemma LowerIdempotent(s: string)
    ensures Lower(Lower(s)) == Lower(s)
  {
  }

  /**
    Upper-casing yields a word of capitals exactly when the input spells that
    word letter by letter in either case: `get`, `Get`, `gEt` all become `GET`.
   */
  lemma UpperSpells(m: string, w: string)
    requires forall i :: 0 <= i < |w| ==> IsUpperLetter(w[i])
    ensures Upper(m) == w <==> SpellsIgnoringCase(m, w)
  {
  }
}

=== FILE: config.dfy ===
/**
  The proxy's one piece of configuration: the backend origin, read from the
  `BACKEND_URL` environment variable once, when the route module loads.
 */
module ProxyConfig {
  import opened Wrappers

  datatype Config = Config(backend: string) {
    /** The module refuses to load with an absent or empty origin. */
    predicate Valid() {
      backend != ""
    }
  }

  datatype ConfigError = BackendUrlNotSet

  /**
    Builds the configuration from the environment variable's value, or fails
    when the variable is unset or empty (both are falsy in JavaScript).
   */
  function Load(env: Option<string>): (r: Result<Config, ConfigError>)
    ensures r.Success? <==> env.Some? && env.value != ""
    ensures r.Success? ==> r.value.Valid() && r.value.backend == env.value
    ensures r.Failure? ==> r.error == BackendUrlNotSet
  {
    match env
    case Some(url) => if url != "" then Success(Config(url)) else Failure(BackendUrlNotSet)
    case None => Failure(BackendUrlNotSet)
  }
}

=== FILE: fetch.dfy ===
/**
  Response values of the WHATWG Fetch Standard, as far as the route relies
  on them: a status, a header container and the body bytes.
 */
module Fetch {
  import opened Wrappers
  import opened Headers

  newtype byte = b: int | 0 <= b < 256

  /** A response: the backend's, as received, or the one relayed to the caller. */
  datatype Response = Response(status: int, headers: HeaderMap, body: seq<byte>)

  /** Why the `Response` constructor throws. */
  datatype ResponseError =
    | StatusOutOfRange         // RangeError: the status is not in 200..599
    | BodyWithNullBodyStatus   // TypeError: a body given with a null body status

  /** The statuses whose responses must not carry a body. */
  predicate NullBodyStatus(status: int) {
    status == 101 || status == 103 || status == 204 || status == 205 || status == 304
  }

  /**
    `new Response(body, {status, headers})`: it throws for a status outside
    200..599, and for any body, even an empty one, given with a null body
    status. An absent body becomes an empty byte sequence.
   */
  function NewResponse(body: Option<seq<byte>>, status: int, headers: HeaderMap): (r: Result<Response, ResponseError>)
    ensures r.Success? <==> 200 <= status <= 599 && !(body.Some? && NullBodyStatus(status))
    ensures !(200 <= status <= 599) ==> r == Failure(StatusOutOfRange)
    ensures 200 <= status <= 599 && body.Some? && NullBodyStatus(status) ==> r == Failure(BodyWithNullBodyStatus)
    ensures r.Success? ==> r.value.status == status && r.value.headers == headers
    ensures r.Success? ==> r.value.body == (if body.Some? then body.value else [])
  {
    if !(200 <= status <= 599) then Failure(StatusOutOfRange)
    else if body.Some? && NullBodyStatus(status) then Failure(BodyWithNullBodyStatus)
    else Success(Response(status, headers, if body.Some? then body.value else []))
  }
}

=== FILE: headers.dfy ===
/**
  The WHATWG `Headers` container, one value per name.

  The container stores every name lower-cased, and `get`, `set` and `delete`
  look a name up without regard to case (section 5.1 of RFC 9110: field
  names are case-insensitive). A `HeaderMap` is therefore a finite map whose
  keys are all lower-case.
 */
module Headers {
  import opened Wrappers
  import opened Ascii

  /** A name in the form the container stores it. */
  predicate IsStoredName(name: string) {
    Lower(name) == name
  }

  type HeaderMap = h: map<string, string> | forall name :: name in h ==> IsStoredName(name)
    witness map[]

  /** `headers.get(name)`: the value stored under any spelling of `name`. */
  function Get(h: HeaderMap, name: string): (r: Option<string>)
    ensures r.Some? <==> exists k :: k in h && EqualsIgnoreCase(k, name)
    ensures forall k :: k in h && EqualsIgnoreCase(k, name) ==> r == Some(h[k])
  {
    LowerIdempotent(name);
    var key := Lower(name);
    if key in h then Some(h[key]) else None
  }

  /** `headers.set(name, value)`: replaces the value under `name`, nothing else. */
  function Set(h: HeaderMap, name: string, value: string): (r: HeaderMap)
    ensures Get(r, name) == Some(value)
    ensures forall n :: !EqualsIgnoreCase(n, name) ==> Get(r, n) == Get(h, n)
  {
    LowerIdempotent(name);
    h[Lower(name) := value]
  }

  /** `headers.delete(name)`: removes `name` in any spelling, nothing else. */
  function Delete(h: HeaderMap, name: string): (r: HeaderMap)
    ensures Get(r, name) == None
    ensures forall n :: !EqualsIgnoreCase(n, name) ==> Get(r, n) == Get(h, n)
  {
    LowerIdempotent(name);
    h - {Lower(name)}
  }

  /** Two header maps that answer every `get` alike are the same map. */
  lemma {:induction false} SameAnswersSameMap(h: HeaderMap, g: HeaderMap)
    requires forall n :: Get(h, n) == Get(g, n)
    ensures h == g
  {
    forall k | k in h
      ensures k in g && g[k] == h[k]
    {
      assert EqualsIgnoreCase(k, k);
      assert Get(h, k) == Some(h[k]);
    }
    forall k | k in g
      ensures k in h
    {
      assert EqualsIgnoreCase(k, k);
      assert Get(g, k) == Some(g[k]);
    }
  }
}

=== FILE: paths.dfy ===
/**
  Joining the catch-all route segments into the backend path, and the
  inverse split used to state what the join preserves.
 */
module Paths {
  import opened Wrappers

  /** The summed length of the parts. */
  function TotalLength(parts: seq<string>): nat {
    if |parts| == 0 then 0 else |parts[0]| + TotalLength(parts[1..])
  }

  /**
    `parts.join(sep)`: the parts in order with one separator between
    neighbours, so the empty list joins to "" and one part to itself.
   */
  function Join(parts: seq<string>, sep: string): (r: string)
    ensures |parts| == 0 ==> r == ""
    ensures |parts| > 0 ==> |parts[0]| <= |r| && r[..|parts[0]|] == parts[0]
  {
    if |parts| == 0 then ""
    else if |parts| == 1 then parts[0]
    else parts[0] + sep + Join(parts[1..], sep)
  }

  /** A join is as long as its parts together plus one separator per gap. */
  lemma {:induction false} JoinLength(parts: seq<string>, sep: string)
    requires |parts| > 0
    ensures |Join(parts, sep)| == TotalLength(parts) + (|parts| - 1) * |sep|
  {
    if |parts| > 1 {
      JoinLength(parts[1..], sep);
      assert (|parts| - 1) * |sep| == (|parts| - 2) * |sep| + |sep|;
    }
  }

  /** Cuts `s` at every occurrence of `c`; "" splits into one empty part. */
  function Split(s: string, c: char): (r: seq<string>)
    ensures |r| > 0
  {
    if s == [] then [""]
    else
      var rest := Split(s[1..], c);
      if s[0] == c then [""] + rest else [[s[0]] + rest[0]] + rest[1..]
  }

  /** `(params.path ?? []).join("/")`: an absent list joins like an empty one. */
  function JoinSegments(segments: Option<seq<string>>): (r: string)
    ensures segments.None? ==> r == Join([], "/") == ""
    ensures segments.Some? ==> r == Join(segments.value, "/")
  {
    match segments
    case Some(parts) => Join(parts, "/")
    case None => ""
  }

  lemma {:induction false} SplitWithoutSeparator(p: string, c: char)
    requires c !in p
    ensures Split(p, c) == [p]
  {
    if p != [] {
      SplitWithoutSeparator(p[1..], c);
      assert p[0] != c;
      assert [p[0]] + p[1..] == p;
    }
  }

  lemma {:induction false} SplitAfterPart(p: string, c: char, s: string)
    requires c !in p
    ensures Split(p + [c] + s, c) == [p] + Split(s, c)
  {
    if p == [] {
      assert (p + [c] + s)[1..] == s;
    } else {
      assert (p + [c] + s)[1..] == p[1..] + [c] + s;
      SplitAfterPart(p[1..], c, s);
      assert [p[0]] + p[1..] == p;
    }
  }

  /** Splitting a join gives the parts back, provided none holds the separator. */
  lemma {:induction false} SplitJoin(parts: seq<string>, c: char)
    requires |parts| > 0
    requires forall i :: 0 <= i < |parts| ==> c !in parts[i]
    ensures Split(Join(parts, [c]), c) == parts
  {
    if |parts| == 1 {
      SplitWithoutSeparator(parts[0], c);
    } else {
      SplitJoin(parts[1..], c);
      SplitAfterPart(parts[0], c, Join(parts[1..], [c]));
    }
  }

  /** Joining a split gives the string back, whatever it holds. */
  lemma {:induction false} JoinSplit(s: string, c: char)
    ensures Join(Split(s, c), [c]) == s
  {
    if s != [] {
      var rest := Split(s[1..], c);
      JoinSplit(s[1..], c);
      if s[0] == c {
        assert ([""] + rest)[1..] == rest;
      } else if |rest| > 1 {
        assert Join(rest, [c]) == rest[0] + [c] + Join(rest[1..], [c]);
        assert ([[s[0]] + rest[0]] + rest[1..])[1..] == rest[1..];
      }
    }
  }
}

=== FILE: route.dfy ===
/**
  The `/proxy/api` route, whose handlers accept an optional `path` parameter
  (a list of path segments): one request is translated into one backend
  request, and the backend's answer is translated into the reply.

  The network call, the asynchronous body reads and the framework's response
  object stay outside: the inbound body arrives as ready text, the backend
  is a function from the request sent to the response it returns, and the
  reply is a plain record.
 */
module ProxyRoute {
  import opened Wrappers
  import opened Ascii
  import opened Headers
  import opened ProxyConfig
  import opened Paths
  import opened Fetch

  /** What the handler reads from the incoming request. */
  datatype InboundRequest = InboundRequest(
    httpMethod: string,  // `req.method`, in whatever case it arrived
    search: string,      // `req.nextUrl.search`: "" or "?" followed by the query
    headers: HeaderMap,
    text: string)        // what `await req.text()` yields

  /** The arguments handed to `fetch`. */
  datatype OutboundRequest = OutboundRequest(
    url: string,
    httpMethod: string,
    headers: HeaderMap,
    body: Option<string>)

  /**
    The request the handler sent together with its outcome: the reply, or
    the error the `Response` constructor throws.
   */
  datatype Exchange = Exchange(sent: OutboundRequest, relayed: Result<Response, ResponseError>)

  const HOST := "host"
  const COOKIE := "cookie"
  const CONTENT_ENCODING := "content-encoding"

  /** The three header-name constants are already in stored (lower-case) form. */
  lemma NamesAreStored()
    ensures Lower(HOST) == HOST && Lower(COOKIE) == COOKIE
    ensures Lower(CONTENT_ENCODING) == CONTENT_ENCODING
  {
  }

  // ----- target URL -----

  /**
    `${BACKEND}/${path}${search}`: the origin, one slash, the joined segments
    and the query string, in that order and with nothing dropped.
   */
  function TargetUrl(cfg: Config, segments: Option<seq<string>>, search: string): (url: string)
    requires cfg.Valid()
    ensures |url| == |cfg.backend| + 1 + |JoinSegments(segments)| + |search|
    ensures url[..|cfg.backend|] == cfg.backend
    ensures url[|cfg.backend|] == '/'
    ensures url[|cfg.backend| + 1 .. |url| - |search|] == JoinSegments(segments)
    ensures url[|url| - |search|..] == search
  {
    cfg.backend + "/" + JoinSegments(segments) + search
  }

  /** The path between the origin's slash and the query string of a target URL. */
  function PathPart(cfg: Config, url: string, search: string): string
    requires |cfg.backend| + 1 + |search| <= |url|
  {
    url[|cfg.backend| + 1 .. |url| - |search|]
  }

  /**
    The segments can be read back from the URL: splitting its path part at
    `/` gives exactly the route's segments, as long as there is at least one
    and none contains a slash.
   */
  lemma TargetUrlKeepsSegments(cfg: Config, parts: seq<string>, search: string)
    requires cfg.Valid()
    requires |parts| > 0
    requires forall i :: 0 <= i < |parts| ==> '/' !in parts[i]
    ensures Split(PathPart(cfg, TargetUrl(cfg, Some(parts), search), search), '/') == parts
  {
    SplitJoin(parts, '/');
  }

  /**
    With no segments (absent or empty) the path part is empty but the slash
    after the origin is kept: the URL is the origin, "/", and the query.
   */
  lemma TargetUrlWithoutSegments(cfg: Config, segments: Option<seq<string>>, search: string)
    requires cfg.Valid()
    requires segments == None || segments == Some([])
    ensures TargetUrl(cfg, segments, search) == cfg.backend + "/" + search
    ensures PathPart(cfg, TargetUrl(cfg, segments, search), search) == ""
  {
  }

  // ----- inbound headers -----

  /**
    The explicit cookie step: when the incoming request has a non-empty
    `cookie` header, set `cookie` to that value again.
   */
  function ResetCookie(inbound: HeaderMap, h: HeaderMap): (r: HeaderMap)
    ensures forall n :: !EqualsIgnoreCase(n, COOKIE) ==> Get(r, n) == Get(h, n)
    ensures Get(inbound, COOKIE).Some? && Get(inbound, COOKIE).value != "" ==>
              Get(r, COOKIE) == Get(inbound, COOKIE)
    ensures Get(inbound, COOKIE).None? || Get(inbound, COOKIE).value == "" ==> r == h
  {
    match Get(inbound, COOKIE)
    case Some(c) => if c != "" then Set(h, COOKIE, c) else h
    case None => h
  }

  /**
    The headers sent to the backend: a copy of the incoming ones with `host`
    deleted and `cookie` set again. Exactly `host` is removed; every other
    name, `content-length` and `connection` included, keeps its value.
   */
  function OutboundHeaders(inbound: HeaderMap): (r: HeaderMap)
    ensures r == inbound - {HOST}
    ensures Get(r, HOST) == None
    ensures forall n :: !EqualsIgnoreCase(n, HOST) ==> Get(r, n) == Get(inbound, n)
    ensures Get(r, COOKIE) == Get(inbound, COOKIE)
  {
    NamesAreStored();
    var copied := inbound;
    var withoutHost := Delete(copied, HOST);
    ResetCookieKeepsCopy(inbound);
    ResetCookie(inbound, withoutHost)
  }

  /** The cookie re-set changes nothing in the copy it is applied to. */
  lemma ResetCookieKeepsCopy(inbound: HeaderMap)
    ensures ResetCookie(inbound, Delete(inbound, HOST)) == Delete(inbound, HOST)
  {
  }

  /** Re-setting the cookie a second time changes nothing further. */
  lemma ResetCookieIdempotent(inbound: HeaderMap, h: HeaderMap)
    ensures ResetCookie(inbound, ResetCookie(inbound, h)) == ResetCookie(inbound, h)
  {
  }

  // ----- method and body -----

  /**
    The body sent to the backend: none when the upper-cased method is `GET`
    or `HEAD` (whatever case the incoming method used), otherwise the incoming
    text verbatim, even when it is empty.
   */
  function RequestBody(httpMethod: string, text: string): (body: Option<string>)
    ensures body.None? <==> SpellsIgnoringCase(httpMethod, "GET") || SpellsIgnoringCase(httpMethod, "HEAD")
    ensures body.Some? ==> body.value == text
  {
    UpperSpells(httpMethod, "GET");
    UpperSpells(httpMethod, "HEAD");
    var m := Upper(httpMethod);
    if m != "GET" && m != "HEAD" then Some(text) else None
  }

  /** Everything passed to `fetch`, built from the request and the route segments. */
  function BuildRequest(cfg: Config, req: InboundRequest, segments: Option<seq<string>>): (out: OutboundRequest)
    requires cfg.Valid()
    ensures out.url == TargetUrl(cfg, segments, req.search)
    ensures out.httpMethod == Upper(req.httpMethod)
    ensures out.headers == req.headers - {HOST}
    ensures out.body.None? <==> out.httpMethod == "GET" || out.httpMethod == "HEAD"
    ensures out.body.Some? ==> out.body.value == req.text
  {
    var httpMethod := Upper(req.httpMethod);
    UpperSpells(req.httpMethod, "GET");
    UpperSpells(req.httpMethod, "HEAD");
    OutboundRequest(TargetUrl(cfg, segments, req.search), httpMethod, OutboundHeaders(req.headers),
                    RequestBody(req.httpMethod, req.text))
  }

  // ----- response -----

  /**
    Reference definition of the relayed headers: every backend header except
    `content-encoding`, compared without regard to case.
   */
  function RelayedHeaders(backend: HeaderMap): (r: HeaderMap)
    ensures forall k :: k in r ==> !EqualsIgnoreCase(k, CONTENT_ENCODING)
    ensures forall k :: k in backend && !EqualsIgnoreCase(k, CONTENT_ENCODING) ==> k in r && r[k] == backend[k]
    ensures forall k :: k in r ==> k in backend && r[k] == backend[k]
  {
    NamesAreStored();
    backend - {CONTENT_ENCODING}
  }

  /**
    The `forEach` copy: an empty container filled by visiting the backend
    headers one by one, skipping `content-encoding`. The visiting order is left open; the
    result is the reference definition whatever the order.
   */
  method CopyResponseHeaders(backend: HeaderMap) returns (relayed: HeaderMap)
    ensures relayed == RelayedHeaders(backend)
  {
    relayed := map[];
    var pending := backend.Keys;
    while pending != {}
      invariant pending <= backend.Keys
      invariant relayed == backend - pending - {CONTENT_ENCODING}
      decreases pending
    {
      var key :| key in pending;
      if Lower(key) != CONTENT_ENCODING {
        relayed := Set(relayed, key, backend[key]);
      }
      pending := pending - {key};
    }
  }

  /**
    The reply as the route builds it: the body bytes always go to the
    `Response` constructor, even when there are none. For a 204, 205 or 304
    from the backend the constructor therefore throws.
   */
  function RelayAsWritten(backend: Response): (r: Result<Response, ResponseError>)
    ensures r.Success? <==> 200 <= backend.status <= 599 && !NullBodyStatus(backend.status)
    ensures r.Success? ==> r.value.status == backend.status && r.value.body == backend.body
    ensures r.Success? ==> r.value.headers == RelayedHeaders(backend.headers)
  {
    NewResponse(Some(backend.body), backend.status, RelayedHeaders(backend.headers))
  }

  /** Every null body status in the constructor's range makes the route throw. */
  lemma NullBodyStatusThrows(backend: Response)
    requires backend.status == 204 || backend.status == 205 || backend.status == 304
    ensures RelayAsWritten(backend) == Failure(BodyWithNullBodyStatus)
  {
  }

  /** A bodiless 304 Not Modified, as a conditional request may get, throws. */
  lemma NotModifiedThrows()
    ensures RelayAsWritten(Response(304, map[], [])) == Failure(BodyWithNullBodyStatus)
  {
  }

  /**
    The reply with the body withheld for null body statuses: the backend's
    status and headers are relayed for every status the constructor accepts,
    the bytes unchanged for every other status. `content-encoding` is never
    relayed.
   */
  function TranslateResponse(backend: Response): (r: Result<Response, ResponseError>)
    ensures r.Success? <==> 200 <= backend.status <= 599
    ensures r.Failure? ==> r.error == StatusOutOfRange
    ensures r.Success? ==> r.value.status == backend.status
    ensures r.Success? && !NullBodyStatus(backend.status) ==> r.value.body == backend.body
    ensures r.Success? && NullBodyStatus(backend.status) ==> r.value.body == []
    ensures r.Success? ==>
              forall n :: Get(r.value.headers, n) == if EqualsIgnoreCase(n, CONTENT_ENCODING) then None else Get(backend.headers, n)
  {
    NamesAreStored();
    var body := if NullBodyStatus(backend.status) then None else Some(backend.body);
    NewResponse(body, backend.status, RelayedHeaders(backend.headers))
  }

  /**
    The correction changes nothing where the route as written succeeds; it
    only turns the null body status failures into replies.
   */
  lemma TranslateResponseExtendsAsWritten(backend: Response)
    ensures RelayAsWritten(backend).Success? ==> TranslateResponse(backend) == RelayAsWritten(backend)
    ensures NullBodyStatus(backend.status) && 200 <= backend.status <= 599 ==>
              RelayAsWritten(backend).Failure? && TranslateResponse(backend).Success?
  {
  }

  /**
    One call of any of the `GET`, `POST`, `PUT`, `PATCH` and `DELETE`
    handlers, as written: exactly one request goes to the backend, and the
    outcome is built from the backend's answer to that request. The handler
    throws for a status outside 200..599 and for 204, 205 and 304.
   */
  function Handle(cfg: Config, req: InboundRequest, segments: Option<seq<string>>,
                  backend: OutboundRequest -> Response): (x: Exchange)
    requires cfg.Valid()
    ensures x.sent == BuildRequest(cfg, req, segments)
    ensures x.relayed == RelayAsWritten(backend(x.sent))
    ensures x.relayed.Success? <==> 200 <= backend(x.sent).status <= 599 && !NullBodyStatus(backend(x.sent).status)
    ensures x.relayed.Success? ==> x.relayed.value.status == backend(x.sent).status
    ensures x.relayed.Success? ==> x.relayed.value.headers == RelayedHeaders(backend(x.sent).headers)
    ensures x.relayed.Success? ==> x.relayed.value.body == backend(x.sent).body
  {
    var sent := BuildRequest(cfg, req, segments);
    Exchange(sent, RelayAsWritten(backend(sent)))
  }

  /**
    The handlers with the corrected response step: the same request goes to
    the backend, and every status the constructor accepts gets a reply, with
    no body for a null body status.
   */
  function HandleCorrected(cfg: Config, req: InboundRequest, segments: Option<seq<string>>,
                           backend: OutboundRequest -> Response): (x: Exchange)
    requires cfg.Valid()
    ensures x.sent == BuildRequest(cfg, req, segments)
    ensures x.relayed.Success? <==> 200 <= backend(x.sent).status <= 599
    ensures x.relayed.Success? ==> x.relayed.value.status == backend(x.sent).status
    ensures x.relayed.Success? ==> x.relayed.value.headers == RelayedHeaders(backend(x.sent).headers)
    ensures x.relayed.Success? && !NullBodyStatus(backend(x.sent).status) ==>
              x.relayed.value.body == backend(x.sent).body
    ensures x.relayed.Success? && NullBodyStatus(backend(x.sent).status) ==> x.relayed.value.body == []
  {
    var sent := BuildRequest(cfg, req, segments);
    Exchange(sent, TranslateResponse(backend(sent)))
  }

  /**
    The corrected handler sends the same request and agrees with the handler
    as written wherever that one replies.
   */
  lemma HandleCorrectedExtendsHandle(cfg: Config, req: InboundRequest, segments: Option<seq<string>>,
                                     backend: OutboundRequest -> Response)
    requires cfg.Valid()
    ensures HandleCorrected(cfg, req, segments, backend).sent == Handle(cfg, req, segments, backend).sent
    ensures Handle(cfg, req, segments, backend).relayed.Success? ==>
              HandleCorrected(cfg, req, segments, backend) == Handle(cfg, req, segments, backend)
  {
  }
}

=== FILE: wrappers.dfy ===
/** Option and Result values used for absent inputs and for failures. */
module Wrappers {

  /** A value that may be absent (JavaScript's `undefined` / `null`). */
  datatype Option<+T> = None | Some(value: T)

  /** Either a value or the error that prevented computing it. */
  datatype Result<+T, +E> = Success(value: T) | Failure(error: E)
}
